=== FILE: README.md ===
# Platformer character controllers, modelled in Dafny

The repository holds two 2D platformer character controllers for Unity.

**`TestController`** is kinematic. It moves the transform itself once per rendered frame. The state machine it runs is:

- record when jump was last held;
- probe the four edges of the character's box with evenly spaced ray detectors and update the contact flags, tracking take-off (the coyote-time stamp) and landing;
- accelerate or decay the horizontal speed;
- compute how close the character is to the top of its jump (the apex point) and interpolate the fall speed from it;
- apply gravity, a wall slide or the ground stop;
- decide on a ground jump (coyote time or jump buffer), an early release, a ceiling stop or a wall jump;
- move the box, sub-stepping the way towards the target when the target overlaps ground.

**`PlayerController`** is physics driven. In the air, each fixed update clamps the vertical speed and picks the gravity scale from the direction of travel; on the ground it resets the scale to 1. While the move action is pressed it also clamps the horizontal speed. It adds a jump impulse when the jump action fires on the ground.

The model uses `real` arithmetic. Every engine query becomes an input:

- the clock and frame time;
- the vertical velocity measured from the last two positions;
- this frame's ray detections (or the ray-cast itself, as a predicate);
- the box-overlap test, as a predicate on box centres;
- the ground test of the physics controller.

The engine helpers the code relies on are written out with the engine's semantics in `unity_math.dfy`:

- `Clamp` tests the lower bound first.
- `Lerp` and `Vector2.Lerp` clamp the parameter.
- `InverseLerp` is 0 on an empty range.
- `MoveTowards` is modelled as the engine defines it.
- `Sign(0)` is 1.

Modules, in the program's order:

| file | module | what |
|---|---|---|
| unity_math.dfy | UnityMath | vectors and the engine's interpolation and clamping helpers |
| geometry.dfy | Geometry | box bounds, `RayRange`, `GetRayRange`, detector points, ray detection |
| controller_state.dfy | ControllerState | tuning (`Config`, with the source's defaults), per-frame state, input, environment, the coyote and buffer predicates |
| collision.dfy | Collision | `GatherJumpTime`, `HandleCollision` |
| gravity.dfy | Gravity | `CalculateJumpApex`, `CalculateGravity` |
| jump.dfy | Jump | `CalcuateJump`, `Jumpers` |
| walk.dfy | Walk | `CalculateWalk` |
| movement.dfy | Movement | `MoveCharacter` and its step search |
| test_controller.dfy | TestController | one `Update` (`Tick`), runs of updates, the coyote/buffer properties across steps |
| player_controller.dfy | PlayerController | `ModifyJumpPhysic`, the pressed branch of `PlayerMovement`, `JumpAction_performed` |

### Quirks kept as the code has them

- **Jump condition grouping.** The ground-jump condition parses as `(jumpDown && coyote) || buffer`. A buffered jump therefore fires on landing without a press on that frame (`Jump.BufferNeedsNoPress`, `TestController.GroundedJumpIffBuffered`).
- **Landing flag.** `HandleCollision` reads the previous frame's ceiling flag. So "landing" (and the coyote re-arm) is reported on every grounded frame whose previous ceiling flag was clear, not only on the first contact.
- **Walk reads the old apex point.** The walk step runs before the apex step, so it uses the previous frame's apex point (`TestController.WalkUsesPreviousApex`).
- **Apex and early release read measured speed.** Both use the vertical speed measured from positions, not the commanded vertical speed.
- **Ceiling before wall jump.** The ceiling check runs before the wall jump, so a wall jump under a ceiling keeps the full jump speed (`Jump.WallJumpBeatsCeiling`).
- **Full fall speed at the apex.** `Lerp(minFallSpeed, maxFallSpeed, apexPoint)` gives `maxFallSpeed`, the stronger pull, at the apex. Far from the apex it gives `minFallSpeed`, the weaker pull (`Gravity.ApexRaisesFallSpeed`, `Gravity.DefaultApexFallSpeeds`).
- **Committed position in `MoveCharacter`.** The sub-step candidates are box centres, because the transform position plus the box offset is used. When step `i >= 2` overlaps, the candidate of step `i - 1` is assigned to the transform position as it is. When the target overlaps but no intermediate step does, the loop ends without moving the character.
- **Facing with zero input.** The physics controller sets the yaw-180 rotation when the horizontal input is exactly zero, as for a negative input.

## Model

| member | source | states |
|---|---|---|
| UnityMath.LerpInverseLerp | Assets/Scripts/TestCase/TestController.cs:245-246 | for every value between the two ends of a non-empty range, interpolating at the parameter the inverse interpolation finds gives the value back: the engine's `InverseLerp` is a right inverse of its `Lerp`, the two helpers these lines call |
| UnityMath.MoveTowards | Assets/Scripts/TestCase/TestController.cs:347 | the result reaches the target exactly when it is within the step; otherwise it moves by exactly the step; with a non-negative step it never moves away from the target and never past it |
| Geometry.GetRayRange | Assets/Scripts/TestCase/TestController.cs:182-189 | the top and bottom ranges lie on the box's horizontal edges, the side ranges on its vertical edges, each inset by the ray buffer at both ends, with the directions up, down, left, right |
| Geometry.EvaluteCollisionPosition | Assets/Scripts/TestCase/TestController.cs:191-198 | for n >= 2 detectors: exactly n points, the first at the start, the last at the end, all on the segment, consecutive points one (end-start)/(n-1) apart; no points for n <= 0; no usable point (0/0) for n == 1 |
| Geometry.RunDetection | Assets/Scripts/TestCase/TestController.cs:177-178 | with at least two detectors, an edge touches if and only if some detector point's ray hits; a hit at either end of the range always counts |
| Geometry.Sense | Assets/Scripts/TestCase/TestController.cs:160-176 | with at least two detectors, each of the four ground flags is set exactly when the ground-layer ray from one of its edge's detector points hits, cast outwards from that edge, and each wall flag exactly when a wall-layer ray from its side's points hits; no detectors clear every flag; one detector gives no answer |
| Geometry.SamplesOnEdges | Assets/Scripts/TestCase/TestController.cs:182-198 | when the box is at least two ray buffers wide and tall, every detector point lies on its own edge of the character's box, inside the span inset by the ray buffer |
| Geometry.SamplesOnEdgeLines | Assets/Scripts/TestCase/TestController.cs:182-198 | for any ray buffer, every detector point lies on the line of its own edge of the character's box |
| ControllerState.CoyoteWindow | Assets/Scripts/TestCase/TestController.cs:74 | once shut, the coyote window stays shut at every later time for the same state; for an airborne state with coyote time usable it opens at the take-off instant (positive threshold) and is shut from one threshold later on |
| ControllerState.BufferWindow | Assets/Scripts/TestCase/TestController.cs:47 | once shut, the jump buffer stays shut at every later time for the same state; for a grounded state it is open at the instant jump was last held (positive buffer time) and shut from one buffer time later on |
| Collision.GatherJumpTime | Assets/Scripts/TestCase/TestController.cs:142-154 | holding jump stamps the clock as the last press; nothing else changes, and without a press nothing changes at all |
| Collision.HandleCollision | Assets/Scripts/TestCase/TestController.cs:156-176 | the flags become the detections; leaving the ground stamps the take-off time; a landing is reported exactly on a grounded frame whose previous ceiling flag was clear; coyote time is re-armed only by a landing |
| Collision.HandleCollisionIdempotent | Assets/Scripts/TestCase/TestController.cs:156-176 | handling the same detections twice changes neither the flags nor the take-off stamp, and a repeated landing keeps coyote time armed |
| Collision.OnlyGroundRearmsCoyote | Assets/Scripts/TestCase/TestController.cs:165-168 | coyote time becomes usable only on a frame that detects the ground |
| Gravity.ApexPoint | Assets/Scripts/TestCase/TestController.cs:245 | the apex point lies in [0, 1]; it is 1 at zero measured speed and 0 from the threshold on |
| Gravity.CalculateJumpApex | Assets/Scripts/TestCase/TestController.cs:241-252 | grounded, the apex point is 0 and the fall speed is kept; airborne, the fall speed lies between the two tuned speeds, minFallSpeed at apex 0 and maxFallSpeed at apex 1; nothing else changes |
| Gravity.ApexLinearBelowThreshold | Assets/Scripts/TestCase/TestController.cs:245 | below the threshold the apex point is 1 - abs(vy)/threshold |
| Gravity.ApexRaisesFallSpeed | Assets/Scripts/TestCase/TestController.cs:245-246 | airborne, with a positive threshold, a slower measured vertical speed gives an apex point at least as large and, with ascending fall speeds, a fall speed at least as large (speeds at or above the threshold all give apex point 0) |
| Gravity.DefaultApexFallSpeeds | Assets/Scripts/TestCase/TestController.cs:241-252 | with the default tuning (threshold 10, fall speeds 80 and 120) an airborne character at the apex gets fall speed 120 and one at the threshold speed gets 80 |
| Gravity.CalculateGravity | Assets/Scripts/TestCase/TestController.cs:203-237 | a wall contact turns any non-zero vertical speed into -0.5; the ground stops a fall; airborne, the speed drops by the pull (multiplied by `jumpEndEarlyModifier`, 3 by default, after an early release while rising) but never below the fall clamp; only the vertical speed changes |
| Gravity.GravityStepBounded | Assets/Scripts/TestCase/TestController.cs:224-234 | starting at or above the fall clamp, with a non-negative fall speed and frame time and a modifier of at least 1, one airborne frame never raises the vertical speed and lowers it by at most fallSpeed times the early-release modifier times the frame time (below the clamp, the clamp itself raises the speed to the clamp) |
| Jump.Jumpers | Assets/Scripts/TestCase/TestController.cs:286-293 | a jump sets the jump speed, clears the early-release latch, spends coyote time and shuts its window for every later time; nothing else changes |
| Jump.CalcuateJump | Assets/Scripts/TestCase/TestController.cs:254-284 | a jump fires if and only if jump is held inside the coyote window, or the buffer is open, or jump is held against a wall; the position, the horizontal speed, the apex point, the fall speed, the last jump-press time, the landing flag and the contact flags are untouched |
| Jump.JumpSpendsCoyote | Assets/Scripts/TestCase/TestController.cs:286-293 | every jump, ground or wall, leaves coyote time spent and the take-off stamp at "never" |
| Jump.NoJumpEffects | Assets/Scripts/TestCase/TestController.cs:261-278 | without a jump the coyote bookkeeping is unchanged, the vertical speed changes only by a ceiling stopping a rise, and the latch is set exactly by an early release |
| Jump.WallJumpBeatsCeiling | Assets/Scripts/TestCase/TestController.cs:272-283 | a wall jump under a ceiling still leaves at the full jump speed with the latch cleared |
| Jump.GroundJumpEffects | Assets/Scripts/TestCase/TestController.cs:256-278 | a ground jump away from walls leaves at the jump speed unless a ceiling zeroes it; the latch is set again at once exactly by a release while airborne and rising |
| Jump.NoWindowNoJump | Assets/Scripts/TestCase/TestController.cs:256-283 | with the coyote window and the buffer shut and no wall, no input makes the character jump |
| Jump.BufferNeedsNoPress | Assets/Scripts/TestCase/TestController.cs:47 | an open buffer jumps on a grounded frame without jump being held |
| Walk.WalkSpeed | Assets/Scripts/TestCase/TestController.cs:336-348 | accelerating, the speed is the clamped accelerated speed plus the apex bonus, saturating at the move clamp; idle, it moves towards zero without crossing it, losing exactly the deceleration step or stopping |
| Walk.CalculateWalk | Assets/Scripts/TestCase/TestController.cs:334-358 | the speed is zeroed exactly when it points into a ground or wall contact on that side, so a remaining speed never points into a contact; only the horizontal speed changes |
| Walk.IdleNeverSpeedsUp | Assets/Scripts/TestCase/TestController.cs:345-357 | an idle frame never increases the horizontal speed's magnitude, whatever the contacts |
| Movement.FirstBlocked | Assets/Scripts/TestCase/TestController.cs:314-331 | returns the first sub-step at or after i that overlaps, with every earlier one clear, or none when all are clear |
| Movement.Resolve | Assets/Scripts/TestCase/TestController.cs:306-331 | the target is clear if and only if it does not overlap; otherwise the search finds the first overlapping sub-step, or none |
| Movement.MoveCharacter | Assets/Scripts/TestCase/TestController.cs:298-331 | a clear target moves by the whole displacement; a blocked first sub-step keeps the position and stops a fall; a later blocked sub-step commits the previous candidate, which the overlap test found clear as a box centre; no blocked sub-step leaves the state as it is |
| Movement.StepSearch | Assets/Scripts/TestCase/TestController.cs:313-331 | the loop as written finds the same outcome as the search and commits the last clear candidate, or the start position |
| TestController.Tick | Assets/Scripts/TestCase/TestController.cs:123-140 | after an update the flags equal the detections, a landing is reported exactly on a grounded frame after a clear ceiling flag, airborne updates never re-arm coyote time, and the horizontal speed is the walk step's |
| TestController.WalkUsesPreviousApex | Assets/Scripts/TestCase/TestController.cs:132-135 | this update's measured vertical speed has no effect on the horizontal speed it produces |
| TestController.TickJumpSpendsCoyote | Assets/Scripts/TestCase/TestController.cs:137 | an update that jumps leaves coyote time spent and its window shut |
| TestController.MiddleStepsKeepJumpInputs | Assets/Scripts/TestCase/TestController.cs:134-136 | the walk, apex and gravity steps change nothing the jump decision reads |
| TestController.TickJumpDecision | Assets/Scripts/TestCase/TestController.cs:132-138 | an update jumps if and only if the jump condition holds on the state left by collision handling |
| TestController.AirborneJumpIffCoyote | Assets/Scripts/TestCase/TestController.cs:74 | holding jump in the air away from walls jumps if and only if the coyote window is open |
| TestController.GroundedJumpIffBuffered | Assets/Scripts/TestCase/TestController.cs:47 | a grounded update away from walls without jump held jumps if and only if jump was last held less than the buffer time ago |
| TestController.CoyoteSpentUntilGrounded | Assets/Scripts/TestCase/TestController.cs:161-168 | spent coyote time stays spent, and its window shut, through any run of updates that never detect the ground |
| TestController.NoCoyoteFromSpawnUntilGrounded | Assets/Scripts/TestCase/TestController.cs:71-74 | coyote time starts unarmed, so from spawn no coyote jump is possible until an update detects the ground |
| TestController.TickFlagsFromRays | Assets/Scripts/TestCase/TestController.cs:156-178 | when an update's detections are the sensing pass at the transform position, each contact flag after the update is set exactly when one of its edge's detector rays hits |
| TestController.NoCoyoteAfterJumpUntilGrounded | Assets/Scripts/TestCase/TestController.cs:286-293 | after a jump no coyote jump is possible until an update detects the ground |
| PlayerController.ModifyJumpPhysic | Assets/Scripts/PlayerController.cs:94-122 | grounded, the gravity scale is 1 and the velocity untouched; airborne, falling selects the fall multiplier, rising with jump released the high-jump multiplier, otherwise the start-up scale, and the vertical speed is clamped into [-2 maxJumpForce, maxJumpForce] |
| PlayerController.AirborneRuleIdempotent | Assets/Scripts/PlayerController.cs:97-115 | with a positive maximum, a second airborne update changes nothing |
| PlayerController.PressedMovement | Assets/Scripts/PlayerController.cs:126-132 | the impulse is horizontal and proportional to the input; the horizontal speed is clamped to the top speed and the vertical speed kept; the rotation is kept at yaw 0 (`Yaw0`) if and only if the input is positive, and is yaw 180 otherwise |
| PlayerController.PressedClampIdempotent | Assets/Scripts/PlayerController.cs:130 | clamping an already clamped horizontal speed keeps it |
| PlayerController.AirborneFixedUpdateBounded | Assets/Scripts/PlayerController.cs:87-122 | one airborne pressed fixed update leaves the velocity inside both clamps |
| PlayerController.JumpActionPerformed | Assets/Scripts/PlayerController.cs:161-200 | the jump impulse is applied only when grounded and pressed, and is then straight up with the jump force |

## Left out

- Input wiring: the input-system callbacks, enabling and disabling actions, and `Awake`/`OnEnable`/`OnDisable`. The input snapshot is a parameter of each update.
- The `GameActive` gate and the delayed `ActivateGame` call: the model describes updates once the game is active.
- Engine queries. Ray casts become a predicate per layer, with the detector length and layer masks folded into it. The box overlap becomes a predicate on box centres. The physics controller's overlap circle becomes a boolean.
- Rigid-body integration: `AddForce` impulses are returned, not integrated. The physics controller's velocity clamp reads the velocity after the engine has applied the impulse, as a parameter.
- The release branch of `PlayerMovement` (`Mathf.SmoothDamp` while not pressed): it depends on the engine's internal damping state.
- Movement.MoveCharacter: the push-out after a blocked first sub-step (moving along the direction away from the hit collider's transform by the move's length) is not modelled; the position is left where the loop committed it.
- The velocity measurement `(position - lastPosition) / deltaTime`: the measured vertical speed is an input of each update.
- Floating point: all arithmetic is exact `real`. `float.MinValue` as the take-off stamp after a jump is a "never" value, which is exactly how it behaves in single precision.
- Geometry.EvaluteCollisionPosition: with exactly one detector the source computes 0/0, a NaN point; the model answers None rather than modelling NaN ray casts.
- The z component of positions and the rotation as a quaternion: the facing is one of two yaw values.
- Gizmo drawing, debug logging, the trigger handlers and the fall detector script.


=== FILE: collision.dfy ===
/** The first two steps of an update (Assets/Scripts/TestCase/TestController.cs:142-180):
    recording when jump was last held, and replacing the contact flags by
    this frame's detections while tracking take-off and landing. */
module Collision {
  import opened UnityMath
  import opened Geometry
  import opened ControllerState

  /** GatherJumpTime: while jump is held the press time follows the clock;
      otherwise nothing changes. */
  function GatherJumpTime(s: TickState, inp: Input, now: real): (r: TickState)
    ensures inp.jumpDown ==> r.lastJumpPressed == now
    ensures r == s.(lastJumpPressed := r.lastJumpPressed)
    ensures !inp.jumpDown ==> r == s
  {
    if inp.jumpDown then s.(lastJumpPressed := now) else s
  }

  /** HandleCollision, given this frame's detections. Leaving the ground
      stamps the clock. Otherwise a grounded frame whose previous ceiling
      flag was clear re-arms coyote time and reports a landing; the ceiling
      flag read there is the previous frame's, since it is reassigned only
      afterwards, so this fires on every such grounded frame and not only on
      the first one. All six flags end equal to the detections. */
  function HandleCollision(s: TickState, d: Detections, now: real): (r: TickState)
    ensures r.colDown == d.down && r.colUp == d.up
    ensures r.colLeft == d.left && r.colRight == d.right
    ensures r.colWallLeft == d.wallLeft && r.colWallRight == d.wallRight
    ensures s.colDown && !d.down ==> r.timeLeftGrounded == At(now)
    ensures !(s.colDown && !d.down) ==> r.timeLeftGrounded == s.timeLeftGrounded
    ensures r.landingThisFrame <==> d.down && !s.colUp
    ensures r.coyeteTimeUsable <==> s.coyeteTimeUsable || r.landingThisFrame
    ensures r.(colUp := s.colUp, colDown := s.colDown, colLeft := s.colLeft, colRight := s.colRight,
               colWallLeft := s.colWallLeft, colWallRight := s.colWallRight,
               timeLeftGrounded := s.timeLeftGrounded, coyeteTimeUsable := s.coyeteTimeUsable,
               landingThisFrame := s.landingThisFrame) == s
  {
    var tookOff := s.colDown && !d.down;
    var landed := !tookOff && !s.colUp && d.down;
    s.(timeLeftGrounded := if tookOff then At(now) else s.timeLeftGrounded,
       coyeteTimeUsable := s.coyeteTimeUsable || landed,
       landingThisFrame := landed,
       colDown := d.down, colRight := d.right, colLeft := d.left, colUp := d.up,
       colWallLeft := d.wallLeft, colWallRight := d.wallRight)
  }

  /** Running the contact update a second time on the same detections gives
      the same flags and the same take-off stamp: the flags depend on the
      detections alone. */
  lemma {:induction false} HandleCollisionIdempotent(s: TickState, d: Detections, now: real, later: real)
    ensures var once := HandleCollision(s, d, now);
      var twice := HandleCollision(once, d, later);
      && twice.(landingThisFrame := once.landingThisFrame, coyeteTimeUsable := once.coyeteTimeUsable) == once
      && (twice.landingThisFrame ==> twice.coyeteTimeUsable)
  {
  }

  /** Coyote time is re-armed only by a grounded frame: an airborne frame
      never turns it on. */
  lemma {:induction false} OnlyGroundRearmsCoyote(s: TickState, d: Detections, now: real)
    requires !d.down
    ensures HandleCollision(s, d, now).coyeteTimeUsable == s.coyeteTimeUsable
    ensures !HandleCollision(s, d, now).landingThisFrame
  {
  }
}

=== FILE: controller_state.dfy ===
/** The state the kinematic controller threads through one update
    (Assets/Scripts/TestCase/TestController.cs:25-77), its tuning constants,
    and the two timing windows every jump decision reads: coyote time and
    the jump buffer. */
module ControllerState {
  import opened UnityMath
  import opened Geometry

  /** The tuning constants of the controller, with the source's defaults in
      `Defaults`. The ray length `detectorlength` and the layer masks are part
      of the abstract ray cast and the overlap test, not of this record. */
  datatype Config = Config(
    acceleration: real,
    deacceleration: real,
    moveClamp: real,
    apexBonus: real,
    jumpHeight: real,
    jumpApexThreshold: real,
    jumpBuffer: real,
    jumpEndEarlyModifier: real,
    fallClamp: real,
    minFallSpeed: real,
    maxFallSpeed: real,
    body: Bounds,
    rayBuffer: real,
    detectorNumber: int,
    coyeteTimeThreshold: real,
    freeCollisionIteration: int)

  /** The serialised defaults; the character bounds are set in the scene and
      default to an empty box here. */
  const Defaults := Config(
    acceleration := 90.0,
    deacceleration := 60.0,
    moveClamp := 13.0,
    apexBonus := 2.0,
    jumpHeight := 30.0,
    jumpApexThreshold := 10.0,
    jumpBuffer := 0.1,
    jumpEndEarlyModifier := 3.0,
    fallClamp := -40.0,
    minFallSpeed := 80.0,
    maxFallSpeed := 120.0,
    body := Bounds(Vec2(0.0, 0.0), Vec2(0.0, 0.0)),
    rayBuffer := 0.1,
    detectorNumber := 3,
    coyeteTimeThreshold := 0.1,
    freeCollisionIteration := 5)

  /** The moment the character last left the ground. A jump stores the most
      negative float there, which closes the coyote window for good; that
      sentinel is `Never`. */
  datatype Stamp = Never | At(time: real)

  /** Everything one update reads and writes. `vertical` and `horizontal`
      are the commanded speeds, `position` the transform position. */
  datatype TickState = TickState(
    position: Vec2,
    vertical: real,
    horizontal: real,
    apexPoint: real,
    fallSpeed: real,
    lastJumpPressed: real,
    timeLeftGrounded: Stamp,
    colUp: bool,
    colDown: bool,
    colLeft: bool,
    colRight: bool,
    colWallLeft: bool,
    colWallRight: bool,
    coyeteTimeUsable: bool,
    endJumpEarly: bool,
    landingThisFrame: bool,
    jumpingThisFrame: bool)

  /** The field initialisers of the component, at a given spawn position. */
  function Spawn(position: Vec2): TickState
  {
    TickState(position, 0.0, 0.0, 0.0, 1.0, 0.0, At(0.0),
              false, false, false, false, false, false,
              false, true, false, false)
  }

  /** The input snapshot of one update: the horizontal axis, whether jump is
      held, whether it was released during this frame, and whether the move
      action is in progress. */
  datatype Input = Input(x: real, jumpDown: bool, jumpUp: bool, inProgress: bool)

  /** What the engine supplies to one update: the clock, the frame time, the
      vertical velocity measured from the last two positions, this frame's
      ray-cast detections and the box-overlap test against the ground layer
      (by box centre). */
  datatype Env = Env(now: real, dt: real, measuredVy: real, hits: Detections, overlap: Vec2 -> bool)

  /** The coyote window: still usable, not on the ground, and left the ground
      less than the threshold ago. */
  predicate CanUseCoyoteTime(cfg: Config, s: TickState, now: real)
  {
    && s.coyeteTimeUsable
    && !s.colDown
    && match s.timeLeftGrounded
       case Never => false
       case At(t) => t + cfg.coyeteTimeThreshold > now
  }

  /** The jump buffer: on the ground, and jump was held less than the buffer
      time ago. */
  predicate HadBufferTime(cfg: Config, s: TickState, now: real)
  {
    s.colDown && s.lastJumpPressed + cfg.jumpBuffer > now
  }

  /** The coyote window, for a state that is off the ground with coyote
      time usable and a take-off stamp: it is open at the take-off instant
      whenever the threshold is positive and shut from one threshold later
      on; for any state, once shut it stays shut at every later time. */
  lemma CoyoteWindow(cfg: Config, s: TickState, now: real, later: real)
    requires now <= later
    ensures !CanUseCoyoteTime(cfg, s, now) ==> !CanUseCoyoteTime(cfg, s, later)
    ensures s.coyeteTimeUsable && !s.colDown && s.timeLeftGrounded.At? ==>
      && (cfg.coyeteTimeThreshold > 0.0 ==> CanUseCoyoteTime(cfg, s, s.timeLeftGrounded.time))
      && !CanUseCoyoteTime(cfg, s, s.timeLeftGrounded.time + cfg.coyeteTimeThreshold)
  {
  }

  /** The jump buffer, for a grounded state: open at the instant jump was
      last held whenever the buffer time is positive and shut from one buffer
      time later on; for any state, once shut it stays shut at every later
      time. */
  lemma BufferWindow(cfg: Config, s: TickState, now: real, later: real)
    requires now <= later
    ensures !HadBufferTime(cfg, s, now) ==> !HadBufferTime(cfg, s, later)
    ensures s.colDown ==>
      && (cfg.jumpBuffer > 0.0 ==> HadBufferTime(cfg, s, s.lastJumpPressed))
      && !HadBufferTime(cfg, s, s.lastJumpPressed + cfg.jumpBuffer)
  {
  }
}

=== FILE: geometry.dfy ===
/** The ray-sampling geometry of the kinematic controller
    (Assets/Scripts/TestCase/TestController.cs:177-198, 415-426): the four
    edge ranges of the character's box, the evenly spaced detector points on
    each range, and "an edge touches" as "some detector ray hits". The
    engine's ray cast is an abstract predicate over a start point and a
    direction; the layer mask and the ray length are folded into it. */
module Geometry {
  import opened UnityMath

  datatype Option<T> = None | Some(value: T)

  /** An axis-aligned box given by its centre and its full size; its corners
      lie half the size away from the centre. */
  datatype Bounds = Bounds(center: Vec2, size: Vec2) {
    function MinCorner(): Vec2 { Vec2(center.x - size.x * 0.5, center.y - size.y * 0.5) }
    function MaxCorner(): Vec2 { Vec2(center.x + size.x * 0.5, center.y + size.y * 0.5) }
  }

  /** The cast directions of the four detector edges. */
  datatype Dir = Up | Down | Left | Right

  /** A sampling edge: detector rays start on the segment from `start` to
      `end` and are cast along `dir`. */
  datatype RayRange = RayRange(start: Vec2, end: Vec2, dir: Dir)

  datatype EdgeRanges = EdgeRanges(up: RayRange, down: RayRange, left: RayRange, right: RayRange)

  /** The six contact flags one detection pass produces: the four edges
      against the ground layer and the two sides against the wall layer. */
  datatype Detections = Detections(
    down: bool, up: bool, left: bool, right: bool,
    wallLeft: bool, wallRight: bool)

  /** The character's box in world space: the configured bounds shifted by
      the transform position. */
  function WorldBounds(position: Vec2, body: Bounds): Bounds
  {
    Bounds(position.Plus(body.center), body.size)
  }

  /** GetRayRange: the top and bottom ranges run along the horizontal edges,
      the side ranges along the vertical edges, each pulled in by `rayBuffer`
      at both ends so that no detector sits on a corner. */
  function GetRayRange(position: Vec2, body: Bounds, rayBuffer: real): (r: EdgeRanges)
    ensures r.up.dir == Up && r.down.dir == Down && r.left.dir == Left && r.right.dir == Right
    ensures var box := WorldBounds(position, body);
      && r.up.start.y == r.up.end.y == box.MaxCorner().y
      && r.down.start.y == r.down.end.y == box.MinCorner().y
      && r.left.start.x == r.left.end.x == box.MinCorner().x
      && r.right.start.x == r.right.end.x == box.MaxCorner().x
    ensures var box := WorldBounds(position, body);
      && r.up.start.x == r.down.start.x == box.MinCorner().x + rayBuffer
      && r.up.end.x == r.down.end.x == box.MaxCorner().x - rayBuffer
      && r.left.start.y == r.right.start.y == box.MinCorner().y + rayBuffer
      && r.left.end.y == r.right.end.y == box.MaxCorner().y - rayBuffer
    ensures r.up.end.x - r.up.start.x == body.size.x - 2.0 * rayBuffer
    ensures r.left.end.y - r.left.start.y == body.size.y - 2.0 * rayBuffer
    ensures r.up.start.y - r.down.start.y == body.size.y
    ensures r.right.start.x - r.left.start.x == body.size.x
  {
    var box := WorldBounds(position, body);
    var lo, hi := box.MinCorner(), box.MaxCorner();
    EdgeRanges(
      RayRange(Vec2(lo.x + rayBuffer, hi.y), Vec2(hi.x - rayBuffer, hi.y), Up),
      RayRange(Vec2(lo.x + rayBuffer, lo.y), Vec2(hi.x - rayBuffer, lo.y), Down),
      RayRange(Vec2(lo.x, lo.y + rayBuffer), Vec2(lo.x, hi.y - rayBuffer), Left),
      RayRange(Vec2(hi.x, lo.y + rayBuffer), Vec2(hi.x, hi.y - rayBuffer), Right))
  }

  /** The parameter of detector `i` out of `n`. */
  function SampleTime(i: int, n: int): real
    requires n >= 2
  {
    i as real / (n - 1) as real
  }

  /** EvaluteCollisionPosition: `n` detector points spread evenly from the
      start of the range to its end. With no detectors there are no points;
      with exactly one the source divides 0 by 0, so its single point is not
      a number and the model answers None. */
  function EvaluteCollisionPosition(range: RayRange, n: int): (r: Option<seq<Vec2>>)
    ensures r.None? <==> n == 1
    ensures n <= 0 ==> r == Some([])
    ensures n >= 2 ==> r.Some? && |r.value| == n
    ensures n >= 2 ==> r.value[0] == range.start && r.value[n - 1] == range.end
    ensures n >= 2 ==> forall i :: 0 <= i < n ==> OnSegment(r.value[i], range.start, range.end)
    ensures n >= 2 ==> forall i :: 0 <= i < n - 1 ==>
      r.value[i + 1].Minus(r.value[i]) == range.end.Minus(range.start).Times(1.0 / (n - 1) as real)
  {
    if n <= 0 then Some([])
    else if n == 1 then None
    else
      var pts := seq(n, i requires 0 <= i < n => LerpVec(range.start, range.end, SampleTime(i, n)));
      assert SampleTime(n - 1, n) == 1.0;
      forall i | 0 <= i < n - 1
        ensures pts[i + 1].Minus(pts[i]) == range.end.Minus(range.start).Times(1.0 / (n - 1) as real)
      {
        EvenStep(range.start, range.end, i, n);
      }
      Some(pts)
  }

  /** Consecutive detector points are one `(end - start) / (n - 1)` apart. */
  lemma EvenStep(a: Vec2, b: Vec2, i: int, n: int)
    requires n >= 2 && 0 <= i < n - 1
    ensures LerpVec(a, b, SampleTime(i + 1, n)).Minus(LerpVec(a, b, SampleTime(i, n)))
         == b.Minus(a).Times(1.0 / (n - 1) as real)
  {
    var d := (n - 1) as real;
    SampleTimeStep(i, n);
    FractionInUnit(i as real, d);
    FractionInUnit((i + 1) as real, d);
    LerpVecStep(a, b, SampleTime(i, n), SampleTime(i + 1, n), 1.0 / d);
  }

  lemma SampleTimeStep(i: int, n: int)
    requires n >= 2
    ensures SampleTime(i + 1, n) - SampleTime(i, n) == 1.0 / (n - 1) as real
  {
    var d := (n - 1) as real;
    assert (i + 1) as real / d == i as real / d + 1.0 / d;
  }

  lemma LerpVecStep(a: Vec2, b: Vec2, t0: real, t1: real, step: real)
    requires 0.0 <= t0 <= 1.0 && 0.0 <= t1 <= 1.0
    requires t1 - t0 == step
    ensures LerpVec(a, b, t1).Minus(LerpVec(a, b, t0)) == b.Minus(a).Times(step)
  {
    StepOf(a.x, b.x, t0, t1);
    StepOf(a.y, b.y, t0, t1);
  }

  lemma StepOf(a: real, b: real, t0: real, t1: real)
    ensures (a + (b - a) * t1) - (a + (b - a) * t0) == (b - a) * (t1 - t0)
  {
  }

  /** RunDetection: an edge touches when some detector ray of the range hits.
      None exactly when the detector points are not numbers. */
  function RunDetection(range: RayRange, n: int, cast: (Vec2, Dir) -> bool): (r: Option<bool>)
    ensures r.None? <==> n == 1
    ensures n <= 0 ==> r == Some(false)
    ensures n >= 2 && (cast(range.start, range.dir) || cast(range.end, range.dir)) ==> r == Some(true)
    ensures r == Some(true) ==> exists i :: 0 <= i < n && cast(EvaluteCollisionPosition(range, n).value[i], range.dir)
    ensures n >= 2 && (exists i :: 0 <= i < n && cast(EvaluteCollisionPosition(range, n).value[i], range.dir)) ==> r == Some(true)
  {
    match EvaluteCollisionPosition(range, n)
    case None => None
    case Some(pts) =>
      var hit := exists i :: 0 <= i < |pts| && cast(pts[i], range.dir);
      assert n >= 2 && cast(range.start, range.dir) ==> cast(pts[0], range.dir);
      assert n >= 2 && cast(range.end, range.dir) ==> cast(pts[n - 1], range.dir);
      Some(hit)
  }

  /** The detection pass of HandleCollision (lines 160, 172-178): the four
      edges against the ground layer, then both sides again against the wall
      layer. With at least two detectors a flag is set exactly when the ray
      from one of that edge's detector points, cast outwards from the edge,
      hits its layer; with none every flag is clear, and with exactly one
      the points are not numbers and there is no answer. */
  function Sense(position: Vec2, body: Bounds, rayBuffer: real, n: int,
                 groundCast: (Vec2, Dir) -> bool, wallCast: (Vec2, Dir) -> bool): (r: Option<Detections>)
    ensures r.None? <==> n == 1
    ensures n <= 0 ==> r == Some(Detections(false, false, false, false, false, false))
    ensures n >= 2 ==> var e := GetRayRange(position, body, rayBuffer);
      && (r.value.down <==> exists i :: 0 <= i < n && groundCast(EvaluteCollisionPosition(e.down, n).value[i], Down))
      && (r.value.up <==> exists i :: 0 <= i < n && groundCast(EvaluteCollisionPosition(e.up, n).value[i], Up))
      && (r.value.left <==> exists i :: 0 <= i < n && groundCast(EvaluteCollisionPosition(e.left, n).value[i], Left))
      && (r.value.right <==> exists i :: 0 <= i < n && groundCast(EvaluteCollisionPosition(e.right, n).value[i], Right))
      && (r.value.wallLeft <==> exists i :: 0 <= i < n && wallCast(EvaluteCollisionPosition(e.left, n).value[i], Left))
      && (r.value.wallRight <==> exists i :: 0 <= i < n && wallCast(EvaluteCollisionPosition(e.right, n).value[i], Right))
  {
    if n == 1 then None
    else
      var e := GetRayRange(position, body, rayBuffer);
      Some(Detections(
        RunDetection(e.down, n, groundCast).value,
        RunDetection(e.up, n, groundCast).value,
        RunDetection(e.left, n, groundCast).value,
        RunDetection(e.right, n, groundCast).value,
        RunDetection(e.left, n, wallCast).value,
        RunDetection(e.right, n, wallCast).value))
  }

  /** Every detector point lies on the line of its own edge of the world
      box, whatever the ray buffer. */
  lemma {:induction false} SamplesOnEdgeLines(position: Vec2, body: Bounds, rayBuffer: real, n: int, i: int)
    requires n >= 2 && 0 <= i < n
    ensures var box, e := WorldBounds(position, body), GetRayRange(position, body, rayBuffer);
      && EvaluteCollisionPosition(e.up, n).value[i].y == box.MaxCorner().y
      && EvaluteCollisionPosition(e.down, n).value[i].y == box.MinCorner().y
      && EvaluteCollisionPosition(e.left, n).value[i].x == box.MinCorner().x
      && EvaluteCollisionPosition(e.right, n).value[i].x == box.MaxCorner().x
  {
  }

  /** When the box is at least two ray buffers wide and tall, every
      detector point lies on its own edge of the world box, inside that
      edge's inset span. */
  lemma {:induction false} SamplesOnEdges(position: Vec2, body: Bounds, rayBuffer: real, n: int, i: int)
    requires n >= 2 && 0 <= i < n
    requires 2.0 * rayBuffer <= body.size.x && 2.0 * rayBuffer <= body.size.y
    ensures var box, e := WorldBounds(position, body), GetRayRange(position, body, rayBuffer);
      var up, down := EvaluteCollisionPosition(e.up, n).value[i], EvaluteCollisionPosition(e.down, n).value[i];
      var left, right := EvaluteCollisionPosition(e.left, n).value[i], EvaluteCollisionPosition(e.right, n).value[i];
      && up.y == box.MaxCorner().y && box.MinCorner().x + rayBuffer <= up.x <= box.MaxCorner().x - rayBuffer
      && down.y == box.MinCorner().y && box.MinCorner().x + rayBuffer <= down.x <= box.MaxCorner().x - rayBuffer
      && left.x == box.MinCorner().x && box.MinCorner().y + rayBuffer <= left.y <= box.MaxCorner().y - rayBuffer
      && right.x == box.MaxCorner().x && box.MinCorner().y + rayBuffer <= right.y <= box.MaxCorner().y - rayBuffer
  {
    var e := GetRayRange(position, body, rayBuffer);
    assert OnSegment(EvaluteCollisionPosition(e.up, n).value[i], e.up.start, e.up.end);
    assert OnSegment(EvaluteCollisionPosition(e.down, n).value[i], e.down.start, e.down.end);
    assert OnSegment(EvaluteCollisionPosition(e.left, n).value[i], e.left.start, e.left.end);
    assert OnSegment(EvaluteCollisionPosition(e.right, n).value[i], e.right.start, e.right.end);
  }
}

=== FILE: gravity.dfy ===
/** Apex tracking and gravity (Assets/Scripts/TestCase/TestController.cs:201-252).
    Airborne, the apex point says how close the measured vertical speed is
    to zero, and the fall speed is interpolated from it; gravity then pins
    the character to a wall slide, rests it on the ground, or pulls it down
    towards the fall clamp. */
module Gravity {
  import opened UnityMath
  import opened ControllerState

  /** The apex point for a measured vertical speed: 1 when the speed is
      zero, 0 from the threshold on. */
  function ApexPoint(threshold: real, measuredVy: real): (a: real)
    ensures 0.0 <= a <= 1.0
    ensures threshold > 0.0 && measuredVy == 0.0 ==> a == 1.0
    ensures threshold >= 0.0 && Abs(measuredVy) >= threshold ==> a == 0.0
  {
    var a := InverseLerp(threshold, 0.0, Abs(measuredVy));
    assert threshold > 0.0 && Abs(measuredVy) >= threshold ==> a == 0.0 by {
      if threshold > 0.0 {
        InverseLerpToZero(threshold, Abs(measuredVy));
      }
    }
    a
  }

  /** CalculateJumpApex, with the vertical velocity measured from the last
      two positions as input (not the commanded vertical speed). */
  function CalculateJumpApex(cfg: Config, s: TickState, measuredVy: real): (r: TickState)
    ensures 0.0 <= r.apexPoint <= 1.0
    ensures s.colDown ==> r.apexPoint == 0.0 && r.fallSpeed == s.fallSpeed
    ensures !s.colDown && cfg.jumpApexThreshold > 0.0 && measuredVy == 0.0 ==> r.apexPoint == 1.0
    ensures !s.colDown && cfg.jumpApexThreshold >= 0.0 && Abs(measuredVy) >= cfg.jumpApexThreshold ==> r.apexPoint == 0.0
    ensures !s.colDown ==> Min(cfg.minFallSpeed, cfg.maxFallSpeed) <= r.fallSpeed <= Max(cfg.minFallSpeed, cfg.maxFallSpeed)
    ensures !s.colDown && r.apexPoint == 0.0 ==> r.fallSpeed == cfg.minFallSpeed
    ensures !s.colDown && r.apexPoint == 1.0 ==> r.fallSpeed == cfg.maxFallSpeed
    ensures r == s.(apexPoint := r.apexPoint, fallSpeed := r.fallSpeed)
  {
    if !s.colDown then
      var apex := ApexPoint(cfg.jumpApexThreshold, measuredVy);
      s.(apexPoint := apex, fallSpeed := Lerp(cfg.minFallSpeed, cfg.maxFallSpeed, apex))
    else
      s.(apexPoint := 0.0)
  }

  /** Below the threshold the apex point falls off linearly with speed. */
  lemma {:induction false} ApexLinearBelowThreshold(cfg: Config, s: TickState, measuredVy: real)
    requires !s.colDown && cfg.jumpApexThreshold > 0.0
    requires Abs(measuredVy) <= cfg.jumpApexThreshold
    ensures CalculateJumpApex(cfg, s, measuredVy).apexPoint == 1.0 - Abs(measuredVy) / cfg.jumpApexThreshold
  {
    InverseLerpToZero(cfg.jumpApexThreshold, Abs(measuredVy));
  }

  /** The slower the measured vertical speed, the nearer the apex and, with
      ascending fall speeds, the harder the pull: at the apex the fall speed
      is `maxFallSpeed`, far from it `minFallSpeed`. */
  lemma {:induction false} ApexRaisesFallSpeed(cfg: Config, s: TickState, vy1: real, vy2: real)
    requires !s.colDown && cfg.jumpApexThreshold > 0.0
    requires cfg.minFallSpeed <= cfg.maxFallSpeed
    requires Abs(vy1) <= Abs(vy2)
    ensures CalculateJumpApex(cfg, s, vy2).apexPoint <= CalculateJumpApex(cfg, s, vy1).apexPoint
    ensures CalculateJumpApex(cfg, s, vy2).fallSpeed <= CalculateJumpApex(cfg, s, vy1).fallSpeed
  {
    var a1 := InverseLerp(cfg.jumpApexThreshold, 0.0, Abs(vy1));
    var a2 := InverseLerp(cfg.jumpApexThreshold, 0.0, Abs(vy2));
    InverseLerpAntitone(cfg.jumpApexThreshold, 0.0, Abs(vy1), Abs(vy2));
    LerpMonotone(cfg.minFallSpeed, cfg.maxFallSpeed, a2, a1);
  }

  /** The pull gravity applies in one frame: the fall speed, multiplied by
      the early-release modifier while the jump was cut short and the
      character still rises. */
  function Pull(cfg: Config, s: TickState): real
  {
    if s.endJumpEarly && s.vertical > 0.0 then s.fallSpeed * cfg.jumpEndEarlyModifier else s.fallSpeed
  }

  /** CalculateGravity: a wall contact pins any non-zero vertical speed to a
      slow slide of -0.5; otherwise the ground stops a fall; otherwise gravity
      pulls the speed down, never below the fall clamp. */
  function CalculateGravity(cfg: Config, s: TickState, dt: real): (r: TickState)
    ensures (s.colWallLeft || s.colWallRight) && s.vertical != 0.0 ==> r.vertical == -0.5
    ensures (s.colWallLeft || s.colWallRight) && s.vertical == 0.0 ==> r.vertical == 0.0
    ensures !(s.colWallLeft || s.colWallRight) && s.colDown && s.vertical < 0.0 ==> r.vertical == 0.0
    ensures !(s.colWallLeft || s.colWallRight) && s.colDown && s.vertical >= 0.0 ==> r.vertical == s.vertical
    ensures !(s.colWallLeft || s.colWallRight) && !s.colDown ==> r.vertical >= cfg.fallClamp
    ensures !(s.colWallLeft || s.colWallRight) && !s.colDown ==>
      r.vertical == Max(cfg.fallClamp, s.vertical - Pull(cfg, s) * dt)
    ensures r == s.(vertical := r.vertical)
  {
    if s.colWallLeft || s.colWallRight then
      if s.vertical > 0.0 || s.vertical < 0.0 then s.(vertical := -0.5) else s
    else if s.colDown then
      if s.vertical < 0.0 then s.(vertical := 0.0) else s
    else
      var v := s.vertical - Pull(cfg, s) * dt;
      s.(vertical := if v < cfg.fallClamp then cfg.fallClamp else v)
  }

  /** One airborne frame of gravity never speeds the character up, and slows
      it by at most the largest pull, `fallSpeed * jumpEndEarlyModifier * dt`,
      as long as it starts at or above the fall clamp. */
  lemma {:induction false} GravityStepBounded(cfg: Config, s: TickState, dt: real)
    requires !(s.colWallLeft || s.colWallRight) && !s.colDown
    requires s.fallSpeed >= 0.0 && dt >= 0.0 && cfg.jumpEndEarlyModifier >= 1.0
    requires s.vertical >= cfg.fallClamp
    ensures s.vertical - s.fallSpeed * cfg.jumpEndEarlyModifier * dt <= CalculateGravity(cfg, s, dt).vertical <= s.vertical
  {
    var fs, m := s.fallSpeed, cfg.jumpEndEarlyModifier;
    MulNonNegative(fs, dt);
    MulNonNegative(fs * dt, m - 1.0);
    assert fs * m * dt == fs * dt + fs * dt * (m - 1.0);
    MulNonNegative(fs * m, dt);
  }

  /** With the source's default tuning an airborne character at rest
      (the apex) gets the fall speed 120, and one moving at the apex
      threshold of 10 or faster gets 80: the pull is strongest at the apex. */
  lemma {:induction false} DefaultApexFallSpeeds(s: TickState)
    requires !s.colDown
    ensures CalculateJumpApex(Defaults, s, 0.0).fallSpeed == 120.0
    ensures CalculateJumpApex(Defaults, s, -10.0).fallSpeed == 80.0
  {
    assert Defaults.jumpApexThreshold == 10.0;
    assert Defaults.minFallSpeed == 80.0 && Defaults.maxFallSpeed == 120.0;
  }
}

=== FILE: jump.dfy ===
/** The jump decision (Assets/Scripts/TestCase/TestController.cs:254-293).
    A ground jump fires when jump is held inside the coyote window, or
    whenever the jump buffer is open; the condition parses as
    `(jumpDown && coyote) || buffer`, so the buffered path needs no press on
    the deciding frame. Then an early release is latched, a ceiling stops a
    rise, and a held jump against a wall jumps again. */
module Jump {
  import opened UnityMath
  import opened ControllerState

  /** Jumpers: launch at the jump speed, clear the early-release latch,
      spend coyote time and shut its window. */
  function Jumpers(cfg: Config, s: TickState): (r: TickState)
    ensures r.vertical == cfg.jumpHeight
    ensures !r.endJumpEarly && !r.coyeteTimeUsable && r.jumpingThisFrame
    ensures r.timeLeftGrounded == Never
    ensures forall now :: !CanUseCoyoteTime(cfg, r, now)
    ensures r.(vertical := s.vertical, endJumpEarly := s.endJumpEarly,
               coyeteTimeUsable := s.coyeteTimeUsable, timeLeftGrounded := s.timeLeftGrounded,
               jumpingThisFrame := s.jumpingThisFrame) == s
  {
    s.(vertical := cfg.jumpHeight, endJumpEarly := false, coyeteTimeUsable := false,
       timeLeftGrounded := Never, jumpingThisFrame := true)
  }

  /** The fields a jump decision never touches. */
  predicate JumpFrame(s: TickState, r: TickState)
  {
    && r.position == s.position && r.horizontal == s.horizontal
    && r.apexPoint == s.apexPoint && r.fallSpeed == s.fallSpeed
    && r.lastJumpPressed == s.lastJumpPressed && r.landingThisFrame == s.landingThisFrame
    && r.colUp == s.colUp && r.colDown == s.colDown && r.colLeft == s.colLeft
    && r.colRight == s.colRight && r.colWallLeft == s.colWallLeft && r.colWallRight == s.colWallRight
  }

  /** The jump bookkeeping an early release or a ceiling leaves alone. */
  predicate SameBookkeeping(s: TickState, r: TickState)
  {
    && r.coyeteTimeUsable == s.coyeteTimeUsable && r.timeLeftGrounded == s.timeLeftGrounded
    && r.jumpingThisFrame == s.jumpingThisFrame
  }

  /** The ground-jump condition exactly as the source groups it. */
  predicate GroundJump(cfg: Config, s: TickState, inp: Input, now: real)
  {
    (inp.jumpDown && CanUseCoyoteTime(cfg, s, now)) || HadBufferTime(cfg, s, now)
  }

  /** The wall-jump condition: jump held while touching either wall. */
  predicate WallJump(s: TickState, inp: Input)
  {
    inp.jumpDown && (s.colWallLeft || s.colWallRight)
  }

  /** An early release: airborne, jump released this frame, not yet latched,
      and the measured vertical velocity still rising. */
  predicate EarlyRelease(s: TickState, inp: Input, measuredVy: real)
  {
    !s.colDown && inp.jumpUp && !s.endJumpEarly && measuredVy > 0.0
  }

  /** Lines 256-264: a ground jump, or clearing the jumping flag. */
  function GroundJumpStep(cfg: Config, s: TickState, inp: Input, now: real): (r: TickState)
    ensures GroundJump(cfg, s, inp, now) ==> r == Jumpers(cfg, s)
    ensures !GroundJump(cfg, s, inp, now) ==> r == s.(jumpingThisFrame := false)
    ensures JumpFrame(s, r) && (r.jumpingThisFrame <==> GroundJump(cfg, s, inp, now))
  {
    if GroundJump(cfg, s, inp, now) then Jumpers(cfg, s) else s.(jumpingThisFrame := false)
  }

  /** Lines 266-270: latch an early release. */
  function EarlyReleaseStep(s: TickState, inp: Input, measuredVy: real): (r: TickState)
    ensures r.endJumpEarly <==> s.endJumpEarly || EarlyRelease(s, inp, measuredVy)
    ensures JumpFrame(s, r) && SameBookkeeping(s, r) && r.vertical == s.vertical
  {
    if EarlyRelease(s, inp, measuredVy) then s.(endJumpEarly := true) else s
  }

  /** Lines 272-278: a ceiling stops a rise. */
  function CeilingStep(s: TickState): (r: TickState)
    ensures s.colUp && s.vertical > 0.0 ==> r.vertical == 0.0
    ensures !(s.colUp && s.vertical > 0.0) ==> r.vertical == s.vertical
    ensures JumpFrame(s, r) && SameBookkeeping(s, r) && r.endJumpEarly == s.endJumpEarly
  {
    if s.colUp && s.vertical > 0.0 then s.(vertical := 0.0) else s
  }

  /** Lines 280-283: a held jump against a wall. */
  function WallJumpStep(cfg: Config, s: TickState, inp: Input): (r: TickState)
    ensures WallJump(s, inp) ==> r == Jumpers(cfg, s)
    ensures !WallJump(s, inp) ==> r == s
    ensures JumpFrame(s, r) && (r.jumpingThisFrame <==> s.jumpingThisFrame || WallJump(s, inp))
  {
    if WallJump(s, inp) then Jumpers(cfg, s) else s
  }

  /** CalcuateJump: a jump fires exactly when the ground-jump or the
      wall-jump condition holds; only the vertical speed, the early-release
      latch and the coyote bookkeeping can change. */
  function CalcuateJump(cfg: Config, s: TickState, inp: Input, measuredVy: real, now: real): (r: TickState)
    ensures r.jumpingThisFrame <==> GroundJump(cfg, s, inp, now) || WallJump(s, inp)
    ensures JumpFrame(s, r)
  {
    var s1 := GroundJumpStep(cfg, s, inp, now);
    var s2 := EarlyReleaseStep(s1, inp, measuredVy);
    var s3 := CeilingStep(s2);
    assert WallJump(s3, inp) == WallJump(s, inp);
    WallJumpStep(cfg, s3, inp)
  }

  /** Every jump, from the ground or from a wall, spends coyote time and
      shuts its window. */
  lemma {:induction false} JumpSpendsCoyote(cfg: Config, s: TickState, inp: Input, measuredVy: real, now: real)
    ensures var r := CalcuateJump(cfg, s, inp, measuredVy, now);
      r.jumpingThisFrame ==> !r.coyeteTimeUsable && r.timeLeftGrounded == Never
  {
  }

  /** When no jump fires, the coyote bookkeeping is untouched, the vertical
      speed changes only by the ceiling stopping a rise, and the early-release
      latch is set by an early release or stays as it was. */
  lemma {:induction false} NoJumpEffects(cfg: Config, s: TickState, inp: Input, measuredVy: real, now: real)
    requires !GroundJump(cfg, s, inp, now) && !WallJump(s, inp)
    ensures var r := CalcuateJump(cfg, s, inp, measuredVy, now);
      && r.coyeteTimeUsable == s.coyeteTimeUsable
      && r.timeLeftGrounded == s.timeLeftGrounded
      && r.vertical == (if s.colUp && s.vertical > 0.0 then 0.0 else s.vertical)
      && (r.endJumpEarly <==> s.endJumpEarly || EarlyRelease(s, inp, measuredVy))
  {
  }

  /** The ceiling check runs before the wall jump, so a wall jump keeps the
      full jump speed even under a ceiling and clears the early-release
      latch. */
  lemma {:induction false} WallJumpBeatsCeiling(cfg: Config, s: TickState, inp: Input, measuredVy: real, now: real)
    requires WallJump(s, inp)
    ensures var r := CalcuateJump(cfg, s, inp, measuredVy, now);
      r.vertical == cfg.jumpHeight && !r.endJumpEarly && r.jumpingThisFrame
  {
  }

  /** A ground jump away from walls leaves at the jump speed unless a
      ceiling cancels it on the same frame; its early-release latch is set
      again at once by a release while rising and airborne. */
  lemma {:induction false} GroundJumpEffects(cfg: Config, s: TickState, inp: Input, measuredVy: real, now: real)
    requires GroundJump(cfg, s, inp, now) && !WallJump(s, inp)
    ensures var r := CalcuateJump(cfg, s, inp, measuredVy, now);
      && r.vertical == (if s.colUp && cfg.jumpHeight > 0.0 then 0.0 else cfg.jumpHeight)
      && (r.endJumpEarly <==> !s.colDown && inp.jumpUp && measuredVy > 0.0)
  {
  }

  /** Without an open coyote window, an open buffer or a wall, no jump fires
      whatever the input, and the vertical speed changes only by the ceiling
      stopping a rise. */
  lemma {:induction false} NoWindowNoJump(cfg: Config, s: TickState, inp: Input, measuredVy: real, now: real)
    requires !CanUseCoyoteTime(cfg, s, now) && !HadBufferTime(cfg, s, now)
    requires !s.colWallLeft && !s.colWallRight
    ensures var r := CalcuateJump(cfg, s, inp, measuredVy, now);
      && !r.jumpingThisFrame
      && r.vertical == (if s.colUp && s.vertical > 0.0 then 0.0 else s.vertical)
  {
    NoJumpEffects(cfg, s, inp, measuredVy, now);
  }

  /** The buffered jump fires on a grounded frame without jump being held. */
  lemma {:induction false} BufferNeedsNoPress(cfg: Config, s: TickState, inp: Input, measuredVy: real, now: real)
    requires HadBufferTime(cfg, s, now) && !inp.jumpDown
    ensures CalcuateJump(cfg, s, inp, measuredVy, now).jumpingThisFrame
  {
    assert GroundJump(cfg, s, inp, now);
  }
}

=== FILE: movement.dfy ===
/** Moving the character (Assets/Scripts/TestCase/TestController.cs:298-331).
    The frame's displacement is tried in one go against the ground-layer
    overlap test; when the box would overlap there, evenly spaced points on
    the way are tried in turn, and the search stops at the first one that
    overlaps. The overlap test is an abstract predicate on box centres. */
module Movement {
  import opened UnityMath
  import opened Geometry
  import opened ControllerState

  /** The `i`-th of `iter` evenly spaced points from `origin` to `target`. */
  function Candidate(origin: Vec2, target: Vec2, i: int, iter: int): Vec2
    requires iter >= 1
  {
    LerpVec(origin, target, i as real / iter as real)
  }

  /** Step `i` is the first one in 1 .. iter-1 whose candidate overlaps. */
  predicate FirstBlockedAt(origin: Vec2, target: Vec2, iter: int, overlap: Vec2 -> bool, i: int)
  {
    && 1 <= i < iter
    && overlap(Candidate(origin, target, i, iter))
    && forall j :: 1 <= j < i ==> !overlap(Candidate(origin, target, j, iter))
  }

  /** The search loop as a recursion from step `i` on: the first step at or
      after `i` (and before `iter`) whose candidate overlaps, or None. */
  function FirstBlocked(origin: Vec2, target: Vec2, iter: int, overlap: Vec2 -> bool, i: int): (k: Option<int>)
    requires i >= 1
    decreases iter - i
    ensures k.Some? ==> i <= k.value < iter && overlap(Candidate(origin, target, k.value, iter))
    ensures k.Some? ==> forall j :: i <= j < k.value ==> !overlap(Candidate(origin, target, j, iter))
    ensures k.None? ==> forall j :: i <= j < iter ==> !overlap(Candidate(origin, target, j, iter))
  {
    if i >= iter then None
    else if overlap(Candidate(origin, target, i, iter)) then Some(i)
    else FirstBlocked(origin, target, iter, overlap, i + 1)
  }

  /** How a move ends: the target is clear, step `step` is the first
      overlapping one, or every intermediate step is clear although the
      target is not. */
  datatype Resolution = Clear | Blocked(step: int) | Exhausted

  /** The outcome of the overlap search from `origin` to `target`. */
  function Resolve(origin: Vec2, target: Vec2, iter: int, overlap: Vec2 -> bool): (res: Resolution)
    ensures res.Clear? <==> !overlap(target)
    ensures res.Blocked? ==> overlap(target) && FirstBlockedAt(origin, target, iter, overlap, res.step)
    ensures res.Exhausted? ==> overlap(target) && forall j :: 1 <= j < iter ==> !overlap(Candidate(origin, target, j, iter))
  {
    if !overlap(target) then Clear
    else match FirstBlocked(origin, target, iter, overlap, 1)
      case None => Exhausted
      case Some(i) => Blocked(i)
  }

  /** The box centre the search starts from. */
  function Origin(cfg: Config, s: TickState): Vec2
  {
    s.position.Plus(cfg.body.center)
  }

  /** The frame's displacement: the commanded speeds times the frame time. */
  function Displacement(s: TickState, dt: real): Vec2
  {
    Vec2(s.horizontal, s.vertical).Times(dt)
  }

  /** The search of one frame's move for this state. */
  function Search(cfg: Config, s: TickState, dt: real, overlap: Vec2 -> bool): Resolution
  {
    Resolve(Origin(cfg, s), Origin(cfg, s).Plus(Displacement(s, dt)), cfg.freeCollisionIteration, overlap)
  }

  /** MoveCharacter. A clear target moves the transform by the whole
      displacement. Otherwise the first overlapping step `i` commits the
      previous candidate: for `i == 1` that is the unchanged transform
      position (and a fall is stopped), for larger `i` the box-centre point
      of step `i - 1`, which the source assigns to the transform as it is
      and which the overlap test found clear. When no intermediate step
      overlaps the loop ends without assigning, so nothing moves. */
  function MoveCharacter(cfg: Config, s: TickState, dt: real, overlap: Vec2 -> bool): (r: TickState)
    ensures Search(cfg, s, dt, overlap).Clear? ==> r == s.(position := s.position.Plus(Displacement(s, dt)))
    ensures Search(cfg, s, dt, overlap).Exhausted? ==> r == s
    ensures Search(cfg, s, dt, overlap) == Blocked(1) ==>
      r.position == s.position && r.vertical == (if s.vertical < 0.0 then 0.0 else s.vertical)
    ensures var res := Search(cfg, s, dt, overlap);
      res.Blocked? && res.step >= 2 ==>
        var target := Origin(cfg, s).Plus(Displacement(s, dt));
        && r.position == Candidate(Origin(cfg, s), target, res.step - 1, cfg.freeCollisionIteration)
        && !overlap(r.position)
        && r.vertical == s.vertical
    ensures r == s.(position := r.position, vertical := r.vertical)
  {
    var origin := Origin(cfg, s);
    var target := origin.Plus(Displacement(s, dt));
    var iter := cfg.freeCollisionIteration;
    match Search(cfg, s, dt, overlap)
    case Clear => s.(position := s.position.Plus(Displacement(s, dt)))
    case Exhausted => s
    case Blocked(i) =>
      if i == 1 then s.(vertical := if s.vertical < 0.0 then 0.0 else s.vertical)
      else s.(position := Candidate(origin, target, i - 1, iter))
  }

  /** The search loop as the source writes it, from the transform position
      `start`: it keeps the last candidate found clear and stops at the first
      overlap. `committed` is the position the transform ends at before the
      push-out: `start` when step 1 overlaps or when no step does. */
  method StepSearch(origin: Vec2, target: Vec2, iter: int, overlap: Vec2 -> bool, start: Vec2)
    returns (res: Resolution, committed: Vec2)
    requires overlap(target)
    ensures res == Resolve(origin, target, iter, overlap)
    ensures res.Blocked? && res.step == 1 ==> committed == start
    ensures res.Blocked? && res.step >= 2 ==> committed == Candidate(origin, target, res.step - 1, iter)
    ensures res.Exhausted? ==> committed == start
  {
    var positionToMove := start;
    var i := 1;
    while i < iter
      invariant 1 <= i
      invariant i > 1 ==> i <= iter
      invariant FirstBlocked(origin, target, iter, overlap, i) == FirstBlocked(origin, target, iter, overlap, 1)
      invariant positionToMove == if i == 1 then start else Candidate(origin, target, i - 1, iter)
      decreases iter - i
    {
      var positionToTry := Candidate(origin, target, i, iter);
      if overlap(positionToTry) {
        return Blocked(i), positionToMove;
      }
      positionToMove := positionToTry;
      i := i + 1;
    }
    return Exhausted, start;
  }
}

=== FILE: player_controller.dfy ===
/** The physics-driven controller (Assets/Scripts/PlayerController.cs):
    the airborne gravity-scale and vertical-velocity clamp rule run on every
    fixed update, the horizontal clamp and facing rule while the move action
    is pressed, and the grounded guard on the jump action. The rigid body's
    integration is the engine's; these rules read and write its velocity and
    gravity scale. */
module PlayerController {
  import opened UnityMath

  /** The serialised tuning of the controller; `tempGravity` is the gravity
      scale the body had at start-up. */
  datatype PlayerConfig = PlayerConfig(
    acceleration: real,
    topSpeed: real,
    jumpForce: real,
    maxJumpForce: real,
    fallMultiplier: real,
    highJumpMultiplier: real,
    tempGravity: real)

  /** The part of the rigid body these rules touch. */
  datatype Body = Body(velocity: Vec2, gravityScale: real)

  /** The gravity scale chosen in the air: falling selects the fall
      multiplier, rising with jump released the high-jump multiplier, and
      anything else (jump held while rising, or no vertical speed at all) the
      start-up scale. */
  function AirborneGravityScale(pc: PlayerConfig, vy: real, jumpInProgress: bool): (g: real)
    ensures vy < 0.0 ==> g == pc.fallMultiplier
    ensures vy > 0.0 && !jumpInProgress ==> g == pc.highJumpMultiplier
    ensures (vy == 0.0 || (vy > 0.0 && jumpInProgress)) ==> g == pc.tempGravity
  {
    if vy < 0.0 then pc.fallMultiplier
    else if vy > 0.0 && !jumpInProgress then pc.highJumpMultiplier
    else pc.tempGravity
  }

  /** ModifyJumpPhysic, given the ground test's answer. On the ground the
      scale is reset to 1 (not to the start-up scale) and the velocity is
      left alone; in the air the scale follows the vertical direction and
      the vertical speed is clamped into [-2 maxJumpForce, maxJumpForce]. */
  function ModifyJumpPhysic(pc: PlayerConfig, isGrounded: bool, jumpInProgress: bool, b: Body): (r: Body)
    ensures isGrounded ==> r.gravityScale == 1.0 && r.velocity == b.velocity
    ensures !isGrounded ==> r.gravityScale == AirborneGravityScale(pc, b.velocity.y, jumpInProgress)
    ensures !isGrounded ==> r.velocity.x == b.velocity.x
    ensures !isGrounded && pc.maxJumpForce >= 0.0 ==> -2.0 * pc.maxJumpForce <= r.velocity.y <= pc.maxJumpForce
    ensures !isGrounded && -2.0 * pc.maxJumpForce <= b.velocity.y <= pc.maxJumpForce ==> r.velocity.y == b.velocity.y
  {
    if !isGrounded then
      var g := AirborneGravityScale(pc, b.velocity.y, jumpInProgress);
      Body(Vec2(b.velocity.x, Clamp(b.velocity.y, -pc.maxJumpForce * 2.0, pc.maxJumpForce)), g)
    else
      b.(gravityScale := 1.0)
  }

  /** With a positive maximum the airborne rule is idempotent: the clamp
      never changes the sign of the vertical speed, so a second airborne
      fixed update picks the same scale and clamps nothing further. (With a
      maximum of 0 a fall is clamped to 0 and the next update switches from
      the fall multiplier to the start-up scale.) */
  lemma {:induction false} AirborneRuleIdempotent(pc: PlayerConfig, jumpInProgress: bool, b: Body)
    requires pc.maxJumpForce > 0.0
    ensures var once := ModifyJumpPhysic(pc, false, jumpInProgress, b);
      ModifyJumpPhysic(pc, false, jumpInProgress, once) == once
  {
    var once := ModifyJumpPhysic(pc, false, jumpInProgress, b);
    var vy, cy := b.velocity.y, once.velocity.y;
    assert vy < 0.0 <==> cy < 0.0;
    assert vy > 0.0 <==> cy > 0.0;
    ClampIdempotent(vy, -pc.maxJumpForce * 2.0, pc.maxJumpForce);
  }

  /** The direction the character faces: rotation 0 about the vertical
      axis, or 180. */
  datatype Facing = Yaw0 | Yaw180

  /** The effect of one pressed fixed update: the horizontal impulse handed
      to the engine, the velocity after the clamp, and the facing. */
  datatype Pressed = Pressed(impulse: Vec2, velocity: Vec2, facing: Facing)

  /** PlayerMovement while the move action is pressed. `v` is the body's
      velocity as the clamp reads it, after the engine has applied the
      impulse. The horizontal speed is clamped into [-topSpeed, topSpeed],
      the vertical speed is untouched, and the character faces right only
      for a strictly positive input: zero input faces left. */
  function PressedMovement(pc: PlayerConfig, moveX: real, dt: real, v: Vec2): (r: Pressed)
    ensures r.impulse.y == 0.0 && r.impulse.x == moveX * pc.acceleration * dt
    ensures r.velocity.y == v.y
    ensures pc.topSpeed >= 0.0 ==> -pc.topSpeed <= r.velocity.x <= pc.topSpeed
    ensures -pc.topSpeed <= v.x <= pc.topSpeed ==> r.velocity.x == v.x
    ensures r.facing == Yaw0 <==> moveX > 0.0
    ensures moveX == 0.0 ==> r.facing == Yaw180
  {
    Pressed(
      Vec2(moveX * pc.acceleration * dt, 0.0),
      Vec2(Clamp(v.x, -pc.topSpeed, pc.topSpeed), v.y),
      if moveX > 0.0 then Yaw0 else Yaw180)
  }

  /** A second pressed update on an already clamped velocity leaves it as it
      is, when the top speed is non-negative. */
  lemma {:induction false} PressedClampIdempotent(pc: PlayerConfig, moveX: real, dt: real, v: Vec2)
    requires pc.topSpeed >= 0.0
    ensures var once := PressedMovement(pc, moveX, dt, v);
      PressedMovement(pc, moveX, dt, once.velocity).velocity == once.velocity
  {
    ClampIdempotent(v.x, -pc.topSpeed, pc.topSpeed);
  }

  /** JumpAction_performed with JumpCharacter: the upward impulse of
      `jumpForce` is handed to the engine only when the last ground test
      succeeded and the action is pressed; otherwise no impulse. */
  function JumpActionPerformed(pc: PlayerConfig, isGrounded: bool, pressed: bool): (impulse: Vec2)
    ensures impulse.x == 0.0
    ensures isGrounded && pressed ==> impulse.y == pc.jumpForce
    ensures !(isGrounded && pressed) ==> impulse == Vec2(0.0, 0.0)
  {
    if isGrounded && pressed then Vec2(0.0, pc.jumpForce) else Vec2(0.0, 0.0)
  }

  /** One airborne fixed update with the move action pressed, in the
      source's order (PlayerMovement, then ModifyJumpPhysic): the velocity
      ends inside the box the two clamps describe, since the vertical clamp
      leaves the horizontal speed as the horizontal clamp made it. */
  lemma {:induction false} AirborneFixedUpdateBounded(pc: PlayerConfig, moveX: real, dt: real, v: Vec2, gravityScale: real, jumpInProgress: bool)
    requires pc.topSpeed >= 0.0 && pc.maxJumpForce >= 0.0
    ensures var moved := PressedMovement(pc, moveX, dt, v);
      var r := ModifyJumpPhysic(pc, false, jumpInProgress, Body(moved.velocity, gravityScale));
      && -pc.topSpeed <= r.velocity.x <= pc.topSpeed
      && -2.0 * pc.maxJumpForce <= r.velocity.y <= pc.maxJumpForce
      && r.gravityScale == AirborneGravityScale(pc, v.y, jumpInProgress)
  {
    var moved := PressedMovement(pc, moveX, dt, v);
    assert moved.velocity.y == v.y;
  }
}

=== FILE: test_controller.dfy ===
/** One update of the kinematic controller
    (Assets/Scripts/TestCase/TestController.cs:123-140), composed from the
    steps in the source's order, and what holds across updates. */
module TestController {
  import opened UnityMath
  import opened Geometry
  import opened ControllerState
  import opened Collision
  import opened Gravity
  import opened Jump
  import opened Walk
  import opened Movement

  /** Update, once the game is active: GatherJumpTime, HandleCollision,
      CalculateWalk, CalculateJumpApex, CalculateGravity, CalcuateJump,
      MoveCharacter. */
  function Tick(cfg: Config, s: TickState, inp: Input, env: Env): (r: TickState)
    ensures r.colDown == env.hits.down && r.colUp == env.hits.up
    ensures r.colLeft == env.hits.left && r.colRight == env.hits.right
    ensures r.colWallLeft == env.hits.wallLeft && r.colWallRight == env.hits.wallRight
    ensures r.landingThisFrame <==> env.hits.down && !s.colUp
    ensures inp.jumpDown ==> r.lastJumpPressed == env.now
    ensures !inp.jumpDown ==> r.lastJumpPressed == s.lastJumpPressed
    ensures !env.hits.down && !s.coyeteTimeUsable ==> !r.coyeteTimeUsable
    ensures var walked := CalculateWalk(cfg, HandleCollision(GatherJumpTime(s, inp, env.now), env.hits, env.now), inp, env.dt);
      r.horizontal == walked.horizontal
  {
    var s1 := GatherJumpTime(s, inp, env.now);
    var s2 := HandleCollision(s1, env.hits, env.now);
    var s3 := CalculateWalk(cfg, s2, inp, env.dt);
    var s4 := CalculateJumpApex(cfg, s3, env.measuredVy);
    var s5 := CalculateGravity(cfg, s4, env.dt);
    var s6 := CalcuateJump(cfg, s5, inp, env.measuredVy, env.now);
    assert !s6.jumpingThisFrame ==> s6.coyeteTimeUsable == s5.coyeteTimeUsable by {
      if !s6.jumpingThisFrame {
        NoJumpEffects(cfg, s5, inp, env.measuredVy, env.now);
      }
    }
    MoveCharacter(cfg, s6, env.dt, env.overlap)
  }

  /** The walk step reads the apex point left by the previous update, so
      this update's measured vertical velocity has no effect on the
      horizontal speed it produces. */
  lemma {:induction false} WalkUsesPreviousApex(cfg: Config, s: TickState, inp: Input, env: Env, otherVy: real)
    ensures Tick(cfg, s, inp, env).horizontal == Tick(cfg, s, inp, env.(measuredVy := otherVy)).horizontal
  {
    var env' := env.(measuredVy := otherVy);
    assert env'.now == env.now && env'.hits == env.hits && env'.dt == env.dt;
  }

  /** A jump in this update leaves coyote time spent and its window shut. */
  lemma {:induction false} TickJumpSpendsCoyote(cfg: Config, s: TickState, inp: Input, env: Env)
    ensures var r := Tick(cfg, s, inp, env);
      r.jumpingThisFrame ==> !r.coyeteTimeUsable && forall now :: !CanUseCoyoteTime(cfg, r, now)
  {
    var s1 := GatherJumpTime(s, inp, env.now);
    var s2 := HandleCollision(s1, env.hits, env.now);
    var s3 := CalculateWalk(cfg, s2, inp, env.dt);
    var s4 := CalculateJumpApex(cfg, s3, env.measuredVy);
    var s5 := CalculateGravity(cfg, s4, env.dt);
    JumpSpendsCoyote(cfg, s5, inp, env.measuredVy, env.now);
  }

  /** The walk, apex and gravity steps leave everything the jump decision
      reads as collision handling left it. */
  lemma {:induction false} MiddleStepsKeepJumpInputs(cfg: Config, s2: TickState, inp: Input, env: Env)
    ensures var s5 := CalculateGravity(cfg, CalculateJumpApex(cfg, CalculateWalk(cfg, s2, inp, env.dt), env.measuredVy), env.dt);
      && (GroundJump(cfg, s5, inp, env.now) <==> GroundJump(cfg, s2, inp, env.now))
      && (WallJump(s5, inp) <==> WallJump(s2, inp))
  {
  }

  /** The jump decision of an update is taken on the state as collision
      handling leaves it: the walk, apex and gravity steps between them do
      not touch anything the decision reads, and the move keeps the flag. */
  lemma {:induction false} TickJumpDecision(cfg: Config, s: TickState, inp: Input, env: Env)
    ensures var s2 := HandleCollision(GatherJumpTime(s, inp, env.now), env.hits, env.now);
      Tick(cfg, s, inp, env).jumpingThisFrame <==> GroundJump(cfg, s2, inp, env.now) || WallJump(s2, inp)
  {
    var s2 := HandleCollision(GatherJumpTime(s, inp, env.now), env.hits, env.now);
    var s5 := CalculateGravity(cfg, CalculateJumpApex(cfg, CalculateWalk(cfg, s2, inp, env.dt), env.measuredVy), env.dt);
    var s6 := CalcuateJump(cfg, s5, inp, env.measuredVy, env.now);
    MiddleStepsKeepJumpInputs(cfg, s2, inp, env);
    var r := MoveCharacter(cfg, s6, env.dt, env.overlap);
    assert r.jumpingThisFrame == s6.jumpingThisFrame;
    assert Tick(cfg, s, inp, env) == r;
  }

  /** Holding jump in an airborne update away from walls jumps exactly when
      the coyote window is open: the press time that counts is measured from
      the take-off stamp, not from the last press. */
  lemma {:induction false} AirborneJumpIffCoyote(cfg: Config, s: TickState, inp: Input, env: Env)
    requires inp.jumpDown && !s.colDown
    requires !env.hits.down && !env.hits.wallLeft && !env.hits.wallRight
    ensures Tick(cfg, s, inp, env).jumpingThisFrame <==> CanUseCoyoteTime(cfg, s, env.now)
  {
    var s2 := HandleCollision(GatherJumpTime(s, inp, env.now), env.hits, env.now);
    TickJumpDecision(cfg, s, inp, env);
    assert s2.coyeteTimeUsable == s.coyeteTimeUsable && s2.timeLeftGrounded == s.timeLeftGrounded;
    assert !HadBufferTime(cfg, s2, env.now) && !WallJump(s2, inp);
  }

  /** A grounded update away from walls with jump not held jumps exactly
      when jump was last held less than the buffer time ago. */
  lemma {:induction false} GroundedJumpIffBuffered(cfg: Config, s: TickState, inp: Input, env: Env)
    requires !inp.jumpDown
    requires env.hits.down && !env.hits.wallLeft && !env.hits.wallRight
    ensures Tick(cfg, s, inp, env).jumpingThisFrame <==> s.lastJumpPressed + cfg.jumpBuffer > env.now
  {
    var s2 := HandleCollision(GatherJumpTime(s, inp, env.now), env.hits, env.now);
    TickJumpDecision(cfg, s, inp, env);
    assert s2.lastJumpPressed == s.lastJumpPressed && s2.colDown;
    assert !WallJump(s2, inp);
  }

  /** One update's input and engine data. */
  datatype Step = Step(input: Input, env: Env)

  /** Successive updates. */
  function Run(cfg: Config, s: TickState, steps: seq<Step>): TickState
    decreases |steps|
  {
    if |steps| == 0 then s
    else Run(cfg, Tick(cfg, s, steps[0].input, steps[0].env), steps[1..])
  }

  /** Once coyote time is spent it stays spent, and its window shut, through
      any run of updates that never detect the ground: only a grounded
      update re-arms it. */
  lemma {:induction false} CoyoteSpentUntilGrounded(cfg: Config, s: TickState, steps: seq<Step>)
    requires !s.coyeteTimeUsable
    requires forall k :: 0 <= k < |steps| ==> !steps[k].env.hits.down
    ensures !Run(cfg, s, steps).coyeteTimeUsable
    ensures forall now :: !CanUseCoyoteTime(cfg, Run(cfg, s, steps), now)
    decreases |steps|
  {
    if |steps| > 0 {
      var next := Tick(cfg, s, steps[0].input, steps[0].env);
      assert !steps[0].env.hits.down;
      assert forall k :: 0 <= k < |steps[1..]| ==> !steps[1..][k].env.hits.down by {
        forall k | 0 <= k < |steps[1..]|
          ensures !steps[1..][k].env.hits.down
        {
          assert steps[1..][k] == steps[k + 1];
        }
      }
      CoyoteSpentUntilGrounded(cfg, next, steps[1..]);
    }
  }

  /** A character spawns with coyote time unarmed, so it cannot coyote-jump
      before its first grounded update. */
  lemma {:induction false} NoCoyoteFromSpawnUntilGrounded(cfg: Config, position: Vec2, steps: seq<Step>)
    requires forall k :: 0 <= k < |steps| ==> !steps[k].env.hits.down
    ensures forall now :: !CanUseCoyoteTime(cfg, Run(cfg, Spawn(position), steps), now)
  {
    CoyoteSpentUntilGrounded(cfg, Spawn(position), steps);
  }

  /** When this update's detections are the sensing pass at the transform
      position (which collision handling reads, nothing having moved the
      character earlier in the update), each contact flag after the update
      is set exactly when one of that edge's detector rays hits. */
  lemma {:induction false} TickFlagsFromRays(cfg: Config, s: TickState, inp: Input, env: Env,
                                             groundCast: (Vec2, Dir) -> bool, wallCast: (Vec2, Dir) -> bool)
    requires cfg.detectorNumber >= 2
    requires env.hits == Sense(s.position, cfg.body, cfg.rayBuffer, cfg.detectorNumber, groundCast, wallCast).value
    ensures var n, e := cfg.detectorNumber, GetRayRange(s.position, cfg.body, cfg.rayBuffer);
      var r := Tick(cfg, s, inp, env);
      && (r.colDown <==> exists i :: 0 <= i < n && groundCast(EvaluteCollisionPosition(e.down, n).value[i], Down))
      && (r.colUp <==> exists i :: 0 <= i < n && groundCast(EvaluteCollisionPosition(e.up, n).value[i], Up))
      && (r.colLeft <==> exists i :: 0 <= i < n && groundCast(EvaluteCollisionPosition(e.left, n).value[i], Left))
      && (r.colRight <==> exists i :: 0 <= i < n && groundCast(EvaluteCollisionPosition(e.right, n).value[i], Right))
      && (r.colWallLeft <==> exists i :: 0 <= i < n && wallCast(EvaluteCollisionPosition(e.left, n).value[i], Left))
      && (r.colWallRight <==> exists i :: 0 <= i < n && wallCast(EvaluteCollisionPosition(e.right, n).value[i], Right))
  {
  }

  /** After a jump, no coyote jump is possible again until an update detects
      the ground. */
  lemma {:induction false} NoCoyoteAfterJumpUntilGrounded(cfg: Config, s: TickState, first: Step, rest: seq<Step>)
    requires forall k :: 0 <= k < |rest| ==> !rest[k].env.hits.down
    ensures Tick(cfg, s, first.input, first.env).jumpingThisFrame ==>
      forall now :: !CanUseCoyoteTime(cfg, Run(cfg, s, [first] + rest), now)
  {
    if !Tick(cfg, s, first.input, first.env).jumpingThisFrame {
      return;
    }
    TickJumpSpendsCoyote(cfg, s, first.input, first.env);
    assert ([first] + rest)[1..] == rest;
    CoyoteSpentUntilGrounded(cfg, Tick(cfg, s, first.input, first.env), rest);
  }
}


=== FILE: unity_math.dfy ===
/** The scalar and vector helpers of the game engine's math library that the
    character controllers call, with the engine's own edge cases: `Clamp`
    tests the lower bound first, `Lerp` clamps its parameter, `InverseLerp`
    answers 0 for an empty interval and `Sign(0)` is 1. Floats are modelled
    as `real`, so no rounding happens here. */
module UnityMath {

  /** A point or displacement in the plane. The third component of the
      engine's positions is always zero for this character and is dropped. */
  datatype Vec2 = Vec2(x: real, y: real) {
    function Plus(o: Vec2): Vec2 { Vec2(x + o.x, y + o.y) }
    function Minus(o: Vec2): Vec2 { Vec2(x - o.x, y - o.y) }
    function Times(k: real): Vec2 { Vec2(x * k, y * k) }
  }

  function Min(a: real, b: real): real { if a <= b then a else b }
  function Max(a: real, b: real): real { if a <= b then b else a }

  /** Mathf.Abs */
  function Abs(x: real): (r: real)
    ensures r >= 0.0
    ensures r == x || r == -x
  {
    if x < 0.0 then -x else x
  }

  /** Mathf.Sign: the sign of zero is +1, not 0. */
  function Sign(x: real): (r: real)
    ensures r == 1.0 || r == -1.0
    ensures r == 1.0 <==> x >= 0.0
    ensures r * x == Abs(x)
  {
    if x >= 0.0 then 1.0 else -1.0
  }

  /** Mathf.Clamp: the lower bound is tested first, so it wins when lo > hi. */
  function Clamp(value: real, lo: real, hi: real): (r: real)
    ensures lo <= hi ==> lo <= r <= hi
    ensures lo <= value <= hi ==> r == value
    ensures value < lo ==> r == lo
    ensures lo <= hi && value > hi ==> r == hi
  {
    if value < lo then lo else if value > hi then hi else value
  }

  /** Clamping into a non-empty interval a second time changes nothing. */
  lemma ClampIdempotent(value: real, lo: real, hi: real)
    requires lo <= hi
    ensures Clamp(Clamp(value, lo, hi), lo, hi) == Clamp(value, lo, hi)
  {
  }

  function Clamp01(t: real): (r: real)
    ensures 0.0 <= r <= 1.0
    ensures 0.0 <= t <= 1.0 ==> r == t
  {
    Clamp(t, 0.0, 1.0)
  }

  /** Mathf.Lerp: the parameter is clamped into [0, 1], so the result never
      leaves the interval spanned by the two end values. */
  function Lerp(a: real, b: real, t: real): (r: real)
    ensures Min(a, b) <= r <= Max(a, b)
    ensures t <= 0.0 ==> r == a
    ensures t >= 1.0 ==> r == b
  {
    var c := Clamp01(t);
    LerpBetween(a, b, c);
    a + (b - a) * c
  }

  lemma LerpBetween(a: real, b: real, c: real)
    requires 0.0 <= c <= 1.0
    ensures Min(a, b) <= a + (b - a) * c <= Max(a, b)
  {
    if a <= b {
      var x := b - a;
      ScaleDown(x, c);
      assert x * c <= x;
      assert a + x * c <= b;
      assert Max(a, b) == b;
    } else {
      ScaleDown(a - b, c);
      assert (b - a) * c == -((a - b) * c);
    }
  }

  /** Scaling a non-negative length by a fraction keeps it between 0 and itself. */
  lemma ScaleDown(x: real, c: real)
    requires x >= 0.0 && 0.0 <= c <= 1.0
    ensures 0.0 <= x * c <= x
  {
    MulNonNegative(x, c);
    MulNonNegative(x, 1.0 - c);
    assert x * (1.0 - c) == x - x * c;
  }

  lemma MulNonNegative(x: real, y: real)
    requires x >= 0.0 && y >= 0.0
    ensures x * y >= 0.0
  {
  }

  lemma QuotientFacts(a: real, b: real)
    requires a != b
    ensures (a - a) / (b - a) == 0.0
    ensures (b - a) / (b - a) == 1.0
  {
  }

  /** Mathf.InverseLerp: the clamped position of `value` between `a` and `b`,
      or 0 when the interval is empty. */
  function InverseLerp(a: real, b: real, value: real): (r: real)
    ensures 0.0 <= r <= 1.0
    ensures a == b ==> r == 0.0
    ensures a != b && value == a ==> r == 0.0
    ensures a != b && value == b ==> r == 1.0
  {
    if a != b then QuotientFacts(a, b); Clamp01((value - a) / (b - a)) else 0.0
  }

  /** Interpolating at the parameter InverseLerp found gives the value back,
      for every value inside the interval. */
  lemma {:induction false} LerpInverseLerp(a: real, b: real, value: real)
    requires a != b
    requires Min(a, b) <= value <= Max(a, b)
    ensures Lerp(a, b, InverseLerp(a, b, value)) == value
  {
    var t := (value - a) / (b - a);
    if a < b {
      FractionInUnit(value - a, b - a);
    } else {
      assert t == (a - value) / (a - b);
      FractionInUnit(a - value, a - b);
    }
    assert InverseLerp(a, b, value) == t;
    assert a + (b - a) * t == value;
  }

  lemma FractionInUnit(v: real, d: real)
    requires 0.0 <= v <= d && d > 0.0
    ensures 0.0 <= v / d <= 1.0
  {
  }

  /** InverseLerp towards a smaller end: a larger value is nearer `b`. */
  lemma {:induction false} InverseLerpAntitone(a: real, b: real, v1: real, v2: real)
    requires b < a
    requires v1 <= v2
    ensures InverseLerp(a, b, v2) <= InverseLerp(a, b, v1)
  {
    var d := b - a;
    assert d < 0.0;
    assert (v2 - a) / d <= (v1 - a) / d by {
      assert (v2 - a) / d - (v1 - a) / d == (v2 - v1) / d;
    }
  }

  /** InverseLerp from a positive `t` down to 0, at a non-negative value:
      1 at zero, falling linearly, and 0 from `t` on. */
  lemma {:induction false} InverseLerpToZero(t: real, v: real)
    requires t > 0.0 && v >= 0.0
    ensures v >= t ==> InverseLerp(t, 0.0, v) == 0.0
    ensures v <= t ==> InverseLerp(t, 0.0, v) == 1.0 - v / t
  {
    NegateQuotient(v - t, t);
    OneMinus(t, v);
    if v <= t {
      FractionInUnit(t - v, t);
    } else {
      FractionInUnit(t, v);
      assert (t - v) / t <= 0.0;
    }
  }

  lemma OneMinus(t: real, v: real)
    requires t != 0.0
    ensures (t - v) / t == 1.0 - v / t
  {
    assert t / t == 1.0;
    assert (t - v) / t == t / t - v / t;
  }

  lemma NegateQuotient(x: real, t: real)
    requires t != 0.0
    ensures x / (0.0 - t) == (0.0 - x) / t
  {
    var q := x / (0.0 - t);
    assert q * (0.0 - t) == x;
    assert (0.0 - q) * t == x;
  }

  /** Lerp between an ascending pair is non-decreasing in its parameter. */
  lemma {:induction false} LerpMonotone(a: real, b: real, t1: real, t2: real)
    requires a <= b
    requires t1 <= t2
    ensures Lerp(a, b, t1) <= Lerp(a, b, t2)
  {
    var c1, c2 := Clamp01(t1), Clamp01(t2);
    assert c1 <= c2;
    assert (b - a) * c1 <= (b - a) * c2 by {
      MulNonNegative(b - a, c2 - c1);
      assert (b - a) * c2 - (b - a) * c1 == (b - a) * (c2 - c1);
    }
  }

  /** Mathf.MoveTowards: step from `current` towards `target` by at most
      `maxDelta`, landing exactly on the target when it is close enough. */
  function MoveTowards(current: real, target: real, maxDelta: real): (r: real)
    ensures r == target <==> Abs(target - current) <= maxDelta
    ensures maxDelta >= 0.0 ==> Abs(r - target) <= Abs(current - target)
    ensures maxDelta >= 0.0 ==> Abs(r - current) <= maxDelta
    ensures maxDelta >= 0.0 && current >= target ==> r >= target
    ensures maxDelta >= 0.0 && current <= target ==> r <= target
    ensures Abs(target - current) > maxDelta ==> Abs(r - current) == Abs(maxDelta)
  {
    if Abs(target - current) <= maxDelta then target
    else current + Sign(target - current) * maxDelta
  }

  /** Vector2.Lerp: both coordinates interpolated with one clamped parameter. */
  function LerpVec(a: Vec2, b: Vec2, t: real): (r: Vec2)
    ensures OnSegment(r, a, b)
    ensures t <= 0.0 ==> r == a
    ensures t >= 1.0 ==> r == b
  {
    var c := Clamp01(t);
    LerpBetween(a.x, b.x, c);
    LerpBetween(a.y, b.y, c);
    assert (a.x + (b.x - a.x) * c - a.x) * (b.y - a.y) == (b.x - a.x) * c * (b.y - a.y);
    assert (a.y + (b.y - a.y) * c - a.y) * (b.x - a.x) == (b.y - a.y) * c * (b.x - a.x);
    Vec2(a.x + (b.x - a.x) * c, a.y + (b.y - a.y) * c)
  }

  /** `p` lies on the closed segment from `a` to `b`: inside its bounding box
      and on the line through both ends. */
  predicate OnSegment(p: Vec2, a: Vec2, b: Vec2)
  {
    && Min(a.x, b.x) <= p.x <= Max(a.x, b.x)
    && Min(a.y, b.y) <= p.y <= Max(a.y, b.y)
    && (p.x - a.x) * (b.y - a.y) == (p.y - a.y) * (b.x - a.x)
  }
}

=== FILE: walk.dfy ===
/** Horizontal motion (Assets/Scripts/TestCase/TestController.cs:334-358).
    With the move action in progress the speed accelerates, is clamped and
    then receives the apex bonus; otherwise it decays towards zero. Either
    way a contact on the side the character moves towards stops it. */
module Walk {
  import opened UnityMath
  import opened ControllerState

  /** The apex bonus added after the clamp. Its sign is the input's, with
      an input of exactly zero counting as positive. */
  function ApexBonus(cfg: Config, x: real, apexPoint: real, dt: real): (b: real)
    ensures apexPoint >= 0.0 && cfg.apexBonus >= 0.0 && dt >= 0.0 ==> (x >= 0.0 ==> b >= 0.0) && (x < 0.0 ==> b <= 0.0)
  {
    var m := cfg.apexBonus * apexPoint * dt;
    assert apexPoint >= 0.0 && cfg.apexBonus >= 0.0 && dt >= 0.0 ==> m >= 0.0 by {
      if apexPoint >= 0.0 && cfg.apexBonus >= 0.0 && dt >= 0.0 {
        MulNonNegative(cfg.apexBonus, apexPoint);
        MulNonNegative(cfg.apexBonus * apexPoint, dt);
      }
    }
    assert Sign(x) * cfg.apexBonus * apexPoint * dt == Sign(x) * m;
    Sign(x) * cfg.apexBonus * apexPoint * dt
  }

  /** The speed before the wall rules. Accelerating, it lies within the move
      clamp up to the apex bonus; idle, it moves towards zero without
      crossing it and loses exactly the deceleration step, or stops. */
  function WalkSpeed(cfg: Config, h: real, inp: Input, apexPoint: real, dt: real): (v: real)
    ensures inp.inProgress && cfg.moveClamp >= 0.0 ==>
      -cfg.moveClamp <= v - ApexBonus(cfg, inp.x, apexPoint, dt) <= cfg.moveClamp
    ensures inp.inProgress && Abs(h + inp.x * cfg.acceleration * dt) <= cfg.moveClamp ==>
      v == h + inp.x * cfg.acceleration * dt + ApexBonus(cfg, inp.x, apexPoint, dt)
    ensures inp.inProgress && cfg.moveClamp >= 0.0 && h + inp.x * cfg.acceleration * dt > cfg.moveClamp ==>
      v == cfg.moveClamp + ApexBonus(cfg, inp.x, apexPoint, dt)
    ensures inp.inProgress && cfg.moveClamp >= 0.0 && h + inp.x * cfg.acceleration * dt < -cfg.moveClamp ==>
      v == -cfg.moveClamp + ApexBonus(cfg, inp.x, apexPoint, dt)
    ensures !inp.inProgress && cfg.deacceleration * dt >= 0.0 ==>
      Abs(v) <= Abs(h) && (h >= 0.0 ==> v >= 0.0) && (h <= 0.0 ==> v <= 0.0)
    ensures !inp.inProgress ==> (v == 0.0 <==> Abs(h) <= cfg.deacceleration * dt)
    ensures !inp.inProgress && Abs(h) > cfg.deacceleration * dt && cfg.deacceleration * dt >= 0.0 ==>
      Abs(v) == Abs(h) - cfg.deacceleration * dt
  {
    if inp.inProgress then
      var accelerated := h + inp.x * cfg.acceleration * dt;
      Clamp(accelerated, -cfg.moveClamp, cfg.moveClamp) + ApexBonus(cfg, inp.x, apexPoint, dt)
    else
      MoveTowards(h, 0.0, cfg.deacceleration * dt)
  }

  /** Moving towards a contact on that side: right into a ground or wall hit
      on the right, or left into one on the left. */
  predicate IntoContact(s: TickState, v: real)
  {
    (v > 0.0 && (s.colRight || s.colWallRight)) || (v < 0.0 && (s.colLeft || s.colWallLeft))
  }

  /** The two contact checks run one after the other (ground contacts,
      then wall contacts); together they zero the speed exactly when it
      points into a contact on that side. */
  function StopAtContacts(s: TickState, v: real): (w: real)
    ensures w == (if IntoContact(s, v) then 0.0 else v)
  {
    var v1 := if (v > 0.0 && s.colRight) || (v < 0.0 && s.colLeft) then 0.0 else v;
    if (v1 > 0.0 && s.colWallRight) || (v1 < 0.0 && s.colWallLeft) then 0.0 else v1
  }

  /** CalculateWalk. The speed is computed from the apex point already in
      the state, which is the previous frame's, because the apex step runs
      after this one. */
  function CalculateWalk(cfg: Config, s: TickState, inp: Input, dt: real): (r: TickState)
    ensures var v := WalkSpeed(cfg, s.horizontal, inp, s.apexPoint, dt);
      r.horizontal == (if IntoContact(s, v) then 0.0 else v)
    ensures r.horizontal > 0.0 ==> !s.colRight && !s.colWallRight
    ensures r.horizontal < 0.0 ==> !s.colLeft && !s.colWallLeft
    ensures r == s.(horizontal := r.horizontal)
  {
    s.(horizontal := StopAtContacts(s, WalkSpeed(cfg, s.horizontal, inp, s.apexPoint, dt)))
  }

  /** Idle frames never speed the character up: the speed magnitude is
      non-increasing, whatever the contacts. */
  lemma {:induction false} IdleNeverSpeedsUp(cfg: Config, s: TickState, inp: Input, dt: real)
    requires !inp.inProgress && cfg.deacceleration * dt >= 0.0
    ensures Abs(CalculateWalk(cfg, s, inp, dt).horizontal) <= Abs(s.horizontal)
  {
    var v := WalkSpeed(cfg, s.horizontal, inp, s.apexPoint, dt);
    assert Abs(v) <= Abs(s.horizontal);
  }
}
